=== FILE: README.md ===
# Keyword-matching programming chatbot, modelled in Dafny

The chat widget answers programming questions from a static knowledge table. The table lists
languages ("C++", then "Python"). Each language has topics keyed by short lower-case
identifiers ("pointers", "generators", ...). Each topic has a display label, a description and
a code example.

The responder (`generateResponse`) works in four steps:

1. It lower-cases the user's message.
2. It walks the languages in table order and commits to the first language whose lower-cased
   name occurs in the message.
3. Inside that language, it answers with the first topic whose key occurs in the message: the
   reply is the topic's description, with the code example.
4. If the language has no such topic, the reply lists the language's topic labels, without code.
   If no language is mentioned at all, the reply is a fixed fallback, without code.

The send step (`handleSend`) ignores input that is only whitespace. Any other input appends the
user's message to the log, then the responder's answer, and clears the input box.

Modules, one per concern:

- `Wrappers`: `Option`.
- `Strings`: the JavaScript string operations the code uses:
  - ASCII `toLowerCase`;
  - `includes`, where the empty needle always occurs;
  - `join`;
  - `trim`, with the ECMAScript white-space and line-terminator set.
- `Search`: first-match search over a sequence, which is what a `for ... of` loop with an early
  `return` computes.
- `Knowledge`: the data types and the shipped table constant `ProgrammingKnowledge`, copied
  entry for entry in insertion order, which is the order `Object.entries` yields. Also the
  table's facts.
- `Responder`: the responder. It has two forms:
  - the declarative `Respond`;
  - the loop-and-early-return `GenerateResponse`, proved equal to `Respond`.

  It also holds the first-match, commit, case and code properties. Most are proved for any
  table, some for tables shaped like the shipped one (`TableShape`), and a few for the shipped
  table itself.
- `Chat`: the message log, the send step, the close button, and the invariant that the log is
  a conversation: user and bot messages alternate, and each bot message is the responder's
  answer to the message before it.

The responder functions take the table as a parameter. The widget always passes
`ProgrammingKnowledge`.

## Model

| member | source | states |
|---|---|---|
| Strings.Lower | ChatBot.tsx:28 | lower-casing keeps the length, leaves no upper-case letter, and agrees with the input at every position up to case |
| Strings.LowerIdempotent | ChatBot.tsx:28 | lower-casing twice is lower-casing once |
| Strings.LowerIsIdentityIff | ChatBot.tsx:28 | lower-casing leaves a string unchanged exactly when it has no upper-case letter |
| Strings.Contains | ChatBot.tsx:32-34 | `includes` holds exactly when the needle occurs at some position of the haystack, so the empty needle always occurs |
| Strings.JoinSnoc | ChatBot.tsx:44-46 | joining one more label appends the separator and the label |
| Strings.JoinLength | ChatBot.tsx:44-46 | a join is as long as its parts plus one separator between each neighbouring pair |
| Strings.Trim | ChatBot.tsx:62 | `trim` is empty exactly when the input is all white space, and otherwise starts and ends with a non-white-space character |
| Search.FirstMatch | ChatBot.tsx:31-40 | the loop with early return yields the least index whose entry matches, and nothing exactly when no entry matches |
| Search.FirstMatchIsFirst | ChatBot.tsx:31-40 | any index that matches while no earlier one does is the one the scan returns |
| Search.FirstMatchIgnoresLater | ChatBot.tsx:31-40 | entries after the first match never influence the scan |
| Knowledge.TopicDetail | programming-knowledge.ts:1-5 | the topic record: display label, description, and an optional example (`examples?` as `Option<string>`); TableExamplesPresent states that every shipped record has the example |
| Knowledge.Topic | programming-knowledge.ts:7-11 | one entry of a language's inner object: the key (the inner `[key: string]`) with its `TopicDetail`; KeyMentionedFirst and RespondTopic match on the key and answer from the detail |
| Knowledge.Language | programming-knowledge.ts:7-11 | one entry of the outer object: the language name (the outer `[key: string]`) with its topics as an ordered sequence; ListingText names the language by this name as written |
| Knowledge.KnowledgeTable | programming-knowledge.ts:7-11 | the nested-object interface as a sequence of languages, ordered as `Object.entries` yields non-integer keys (insertion order); FirstMatchIsFirst, RespondCommits and CommitsWithoutBacktracking depend on that order |
| Knowledge.ProgrammingKnowledge | programming-knowledge.ts:13-123 | the shipped table, entry for entry in insertion order; characterised by TableLanguages, TableTopicKeys, TableExamplesPresent and ShippedTableShape |
| Knowledge.TableLanguages | programming-knowledge.ts:13-123 | the table has exactly two languages, "C++" (line 14) then "Python" (line 62) |
| Knowledge.TableTopicKeys | programming-knowledge.ts:14-123 | C++ has the keys pointers, memory-management, stl, templates, oop, move-semantics, lambda, and Python has data-structures, comprehensions, decorators, generators, async, type-hints, context-managers, in that order |
| Knowledge.TableExamplesPresent | programming-knowledge.ts:15-122 | every topic record has a code example, and none is empty |
| Knowledge.ShippedTableShape | programming-knowledge.ts:13-123 | the shipped table has the names, key lists and examples that the sample-question lemmas rely on |
| Knowledge.ShapeKeysDistinct | programming-knowledge.ts:14-123 | in any table with these key lists, the keys within a language are pairwise distinct |
| Knowledge.ShapeKeysLowercase | programming-knowledge.ts:14-123 | in any table with these key lists, every key is free of upper-case letters |
| Knowledge.TableKeysDistinct | programming-knowledge.ts:14-123 | within each language of the shipped table no key appears twice |
| Knowledge.TableKeysLowercase | programming-knowledge.ts:14-123 | every key of the shipped table is already lower-case |
| Knowledge.LowercaseKeysUnchanged | ChatBot.tsx:34 | for lower-case keys, the key lower-cased for matching is the key as written |
| Knowledge.LanguageNamesNotNested | programming-knowledge.ts:14-62 | neither lower-cased language name ("c++", "python") occurs inside the other |
| Responder.Reply | ChatBot.tsx:36-58 | the `{ content, code? }` object of the three returns (lines 36-39, 48-50, 56-58), with `code?` as `Option<string>`; RespondTopic, RespondListing and RespondFallback give its value in each case |
| Responder.FallbackText | ChatBot.tsx:56-58 | the fixed default text; ListingIsNotFallback states that no listing equals it |
| Responder.FallbackReply | ChatBot.tsx:54-58 | the default reply, the fallback text with no code; RespondFallback states it is the reply when no language is mentioned, FallbackExactlyWhenNoLanguage that it is given only then, and ListingIsNotFallback that no listing reply coincides with it |
| Responder.LanguageHit | ChatBot.tsx:32 | the language test: the lower-cased name occurs in the lower-cased message; FirstLanguage picks the first hit, and RespondTopic, RespondListing and RespondFallback give the reply in terms of it |
| Responder.TopicHit | ChatBot.tsx:34 | the topic test: the lower-cased key occurs in the lower-cased message; FirstTopic picks the first hit, RespondTopic and RespondListing give the reply in terms of it, and KeysNotMentioned and KeyMentionedFirst reduce it to the key as written for lower-case keys |
| Responder.Respond | ChatBot.tsx:26-59 | the declarative `generateResponse`; characterised by RespondFallback, RespondTopic and RespondListing, which give its reply in each of the three cases in terms of the first mentioned language and topic, and proved equal to the loop form by GenerateResponse |
| Responder.ReplyFor | ChatBot.tsx:33-50 | the reply once a language is chosen; RespondCommits states that the whole reply is this function of the first mentioned language, and RespondTopic and RespondListing give its two cases |
| Responder.ListingText | ChatBot.tsx:44-49 | the listing template; ListingMentionsEveryTopic states that it names every topic of the language by its label, and ListingIsNotFallback that it never equals the fallback |
| Responder.ListingMentionsEveryTopic | ChatBot.tsx:44-49 | the listing contains the display label of every topic of the language |
| Knowledge.TopicNames | ChatBot.tsx:44-45 | the topic labels in table order, the `Object.keys(...).map(...)` step; ListingMentionsEveryTopic states that each of them reaches the listing |
| Strings.Join | ChatBot.tsx:46 | `join`; characterised by JoinSnoc, JoinLength and JoinContains |
| Strings.JoinContains | ChatBot.tsx:46 | every element occurs in the joined string |
| Responder.GenerateResponse | ChatBot.tsx:26-59 | the nested loops with early returns compute exactly the first-match rule, and the typing flag raised on entry is lowered on all three return paths |
| Responder.RespondFallback | ChatBot.tsx:31-58 | with no lower-cased language name in the lower-cased message (the test at lines 31-32), the reply is the fixed fallback with no code (the return at lines 54-58) |
| Responder.RespondTopic | ChatBot.tsx:31-40 | when language i is the first mentioned and topic k its first mentioned topic, the reply is that topic's description with its example as code |
| Responder.RespondListing | ChatBot.tsx:31-50 | when the first mentioned language has no mentioned topic, the reply is the greeting, the language name as written, the comma-joined topic labels in table order, and no code |
| Responder.RespondCommits | ChatBot.tsx:31-51 | the reply is decided by the first mentioned language alone: replacing everything after it in the table changes nothing |
| Responder.RespondIgnoresCase | ChatBot.tsx:28 | messages that lower-case alike get identical replies |
| Responder.RespondToLowered | ChatBot.tsx:28 | lower-casing a message before sending it does not change the reply |
| Responder.RespondEmpty | ChatBot.tsx:28-58 | the empty message gets the fallback from any table whose language names are non-empty |
| Responder.ListingIsNotFallback | ChatBot.tsx:49-57 | no topic listing, for any language, equals the fallback text |
| Responder.FallbackExactlyWhenNoLanguage | ChatBot.tsx:31-58 | when every topic carries code, the reply is the fallback if and only if no language is mentioned |
| Responder.CodeExactlyOnTopicHit | ChatBot.tsx:31-58 | when every topic carries code, a reply carries code if and only if the first mentioned language has a mentioned topic, and that code is never empty |
| Responder.KeysNotMentioned | ChatBot.tsx:33-34 | for lower-case keys, a message containing none of a language's first n keys mentions none of its first n topics |
| Responder.KeyMentionedFirst | ChatBot.tsx:33-40 | for lower-case keys, a message containing key k and no earlier key mentions topic k first |
| Responder.PythonicMentionsPython | ChatBot.tsx:32-50 | there is no word-boundary check: "pythonic" mentions Python and none of its topics, so it gets the Python listing |
| Responder.CommitsWithoutBacktracking | ChatBot.tsx:31-51 | "c++ and python generators" gets the C++ listing, although Python alone would have answered with its generators topic |
| Responder.CaseDoesNotMatter | ChatBot.tsx:28-40 | "PYTHON GENERATORS" and "python generators" get the same reply, the generators description with its code |
| Responder.EmptyMessageGetsFallback | ChatBot.tsx:28-58 | the empty message gets the fallback from the shipped table |
| Responder.ShippedFallbackExactlyWhenNoLanguage | ChatBot.tsx:31-58 | from the shipped table, the fallback is given if and only if no language is mentioned |
| Responder.ShippedPythonic | ChatBot.tsx:32-50 | from the shipped table, "pythonic" gets the Python listing |
| Responder.ShippedGenerators | ChatBot.tsx:28-40 | from the shipped table, "PYTHON GENERATORS" gets the generators record (programming-knowledge.ts:87-95) |
| Chat.Message | ChatBot.tsx:12-17 | a log entry: id, content, sender flag, and optional code (`code?` as `Option<string>`); HandleSend states which entries a send creates and Conversation how they alternate |
| Chat.Session | ChatBot.tsx:21-22 | the `messages` and `input` state the send step reads and writes; HandleSend states how a send changes both fields, and HandleSendPreservesConversation that `messages` stays a conversation |
| Chat.HandleSend | ChatBot.tsx:61-81 | whitespace-only input leaves the session unchanged. Otherwise the log grows by exactly two entries and nothing earlier changes. The first new entry is the user message with the input as content. The second is a bot message answering it with the responder's content and code. The input box is cleared |
| Chat.ExchangeExtendsConversation | ChatBot.tsx:70-81 | appending a user message and its answer to a conversation keeps it a conversation |
| Chat.HandleSendPreservesConversation | ChatBot.tsx:61-81 | sending keeps the log a conversation |
| Chat.CloseStartsConversation | ChatBot.tsx:118-121 | closing leaves an empty conversation |
| Chat.HandleSendTwice | ChatBot.tsx:62-71 | a send clears the input, so a second send straight after it changes nothing |
| Chat.ConversationCode | ChatBot.tsx:73-79 | when every topic carries code, in a conversation a bot message carries code if and only if its question mentions a topic of the first mentioned language, and the code is never empty |

## Left out

- The rendering (ChatBot.tsx:93-229) and page.tsx are view markup. The imported UI components and `cn` (ChatBot.tsx:4-9) are foreign code. None of them is part of this model.
- React state hooks and `async`/`await` are not modelled. `generateResponse` awaits nothing, so it is a pure function here. Of the state setters, `setMessages` and `setInput` become the two fields of the returned `Session`, and `setIsTyping` becomes an out-parameter of `GenerateResponse`. `setIsOpen` and `setHasNewMessage` are left out, as the next lines say.
- The typing flag is an out-parameter of `GenerateResponse`. Only its value at return is stated; its brief `true` value during the call is not.
- Between the two log appends of `handleSend` there is an intermediate state holding the user message alone. It is not modelled: `HandleSend` returns the state after both appends.
- The open/minimize state, the new-message badge (ChatBot.tsx:82-84) and its reset effect (ChatBot.tsx:87-91) are widget state and are left out. Of the close button only the log clearing is kept.
- Message ids come from `Date.now()` (ChatBot.tsx:65, 75). Here they are parameters of `HandleSend`, because they are clock reads. Their uniqueness is not claimed: `Date.now()` does not guarantee it.
- Strings.Lower: folds only the ASCII letters A-Z, whereas `toLowerCase` follows full Unicode case mapping. Since every name and key is ASCII, matching can differ only where a non-ASCII character lower-cases to ASCII. That happens for exactly two characters: U+0130 becomes "i" followed by U+0307, and U+212A (Kelvin sign) becomes "k". No shipped name or key contains "k" or ends in "i", so the shipped table gets the same replies as in the source for every message. For other tables the generic lemmas can disagree with the source on messages holding those two characters. Dafny's `char` is a Unicode scalar value, not a UTF-16 code unit, so messages with lone surrogates cannot be represented.
- Responder.PythonicMentionsPython: like CommitsWithoutBacktracking and CaseDoesNotMatter, it is stated for tables of the shipped shape (names, key lists and examples). It is carried over to the shipped table by `ShippedTableShape`. Only the "pythonic" and "generators" cases have shipped-table corollaries.
- No typing delay is modelled; the code has none.

=== FILE: chat.dfy ===
/** The chat widget's message log and the send step around the responder: a whitespace-only
    input is ignored; anything else appends the user's message and then the responder's
    answer to it, and clears the input box. */
module Chat {

  import opened Wrappers
  import opened Strings
  import opened Knowledge
  import opened Responder

  /** One entry of the log. Only bot messages carry code. */
  datatype Message = Message(id: string, content: string, isBot: bool, code: Option<string>)

  /** What the send step reads and writes: the log and the text in the input box. */
  datatype Session = Session(messages: seq<Message>, input: string)

  /** `answer` is the bot's reply to the user message `question`. */
  predicate Answers(table: KnowledgeTable, question: Message, answer: Message) {
    && !question.isBot && question.code.None? && !AllWhiteSpace(question.content)
    && answer.isBot && Reply(answer.content, answer.code) == Respond(table, question.content)
  }

  /** The log alternates user and bot messages, starting with the user, and every bot
      message answers the user message just before it. */
  predicate Conversation(table: KnowledgeTable, log: seq<Message>) {
    && |log| % 2 == 0
    && (forall i :: 0 <= i < |log| ==> (log[i].isBot <==> i % 2 == 1))
    && (forall i :: 0 < i < |log| && i % 2 == 1 ==> Answers(table, log[i - 1], log[i]))
  }

  /** The send button. The two message ids come from the clock and are supplied by the
      caller. */
  function HandleSend(table: KnowledgeTable, s: Session, userId: string, botId: string): (r: Session)
    ensures AllWhiteSpace(s.input) ==> r == s
    ensures !AllWhiteSpace(s.input) ==>
      && |r.messages| == |s.messages| + 2
      && r.messages[..|s.messages|] == s.messages
      && r.messages[|s.messages|] == Message(userId, s.input, false, None)
      && r.messages[|s.messages| + 1].id == botId
      && Answers(table, r.messages[|s.messages|], r.messages[|s.messages| + 1])
      && r.input == ""
  {
    if Trim(s.input) == [] then s
    else
      var reply := Respond(table, s.input);
      var userMessage := Message(userId, s.input, false, None);
      var botMessage := Message(botId, reply.content, true, reply.code);
      Session(s.messages + [userMessage, botMessage], "")
  }

  /** The close button: the log is emptied; the input box keeps its text. */
  function Close(s: Session): Session {
    Session([], s.input)
  }

  /** Appending a question and its answer to a conversation gives a conversation. */
  lemma ExchangeExtendsConversation(table: KnowledgeTable, log: seq<Message>, question: Message, answer: Message)
    requires Conversation(table, log)
    requires Answers(table, question, answer)
    ensures Conversation(table, log + [question, answer])
  {
    var ext := log + [question, answer];
    var n := |log|;
    assert forall i :: 0 <= i < n ==> ext[i] == log[i];
    assert ext[n] == question && ext[n + 1] == answer;
  }

  /** Sending keeps the log a conversation. */
  lemma HandleSendPreservesConversation(table: KnowledgeTable, s: Session, userId: string, botId: string)
    requires Conversation(table, s.messages)
    ensures Conversation(table, HandleSend(table, s, userId, botId).messages)
  {
    var r := HandleSend(table, s, userId, botId);
    var n := |s.messages|;
    if !AllWhiteSpace(s.input) {
      assert r.messages == s.messages + [r.messages[n], r.messages[n + 1]];
      ExchangeExtendsConversation(table, s.messages, r.messages[n], r.messages[n + 1]);
    }
  }

  /** Closing leaves an empty conversation. */
  lemma CloseStartsConversation(table: KnowledgeTable, s: Session)
    ensures Conversation(table, Close(s).messages)
  {
  }

  /** A send clears the input box, so pressing send straight again changes nothing. */
  lemma HandleSendTwice(table: KnowledgeTable, s: Session, userId: string, botId: string, userId': string, botId': string)
    ensures HandleSend(table, HandleSend(table, s, userId, botId), userId', botId')
         == HandleSend(table, s, userId, botId)
  {
  }

  /** In a conversation over a table whose topics all carry code, a bot message has code
      exactly when its question names a language with a mentioned topic, and never empty code. */
  lemma ConversationCode(table: KnowledgeTable, log: seq<Message>, i: int)
    requires ExamplesEverywhere(table)
    requires Conversation(table, log)
    requires 0 <= i < |log| && log[i].isBot
    ensures log[i].code.Some?
        <==> exists l :: FirstLanguage(table, Lower(log[i - 1].content), l)
                         && !NoTopicHit(table[l], Lower(log[i - 1].content))
    ensures log[i].code.Some? ==> log[i].code.value != ""
  {
    assert Answers(table, log[i - 1], log[i]);
    CodeExactlyOnTopicHit(table, log[i - 1].content);
  }

}

=== FILE: knowledge.dfy ===
/** The static knowledge table the responder reads: an ordered list of languages, each
    with an ordered list of topics keyed by a short lower-case identifier. */
module Knowledge {

  import opened Wrappers
  import opened Strings

  /** One entry of the table: display label, explanation and an optional code snippet. */
  datatype TopicDetail = TopicDetail(topic: string, description: string, examples: Option<string>)

  /** A topic key with its record. */
  datatype Topic = Topic(key: string, detail: TopicDetail)

  /** A language name with its topics, in table order. */
  datatype Language = Language(name: string, topics: seq<Topic>)

  /** Languages in table order. Iteration order decides which entry matches first. */
  type KnowledgeTable = seq<Language>

  /** The topic keys of a language, in table order. */
  function Keys(lang: Language): seq<string> {
    seq(|lang.topics|, i requires 0 <= i < |lang.topics| => lang.topics[i].key)
  }

  /** The display labels of a language's topics, in table order. */
  function TopicNames(lang: Language): seq<string> {
    seq(|lang.topics|, i requires 0 <= i < |lang.topics| => lang.topics[i].detail.topic)
  }

  predicate KeysDistinct(lang: Language) {
    forall i, j :: 0 <= i < j < |lang.topics| ==> lang.topics[i].key != lang.topics[j].key
  }

  predicate KeysLowercase(lang: Language) {
    forall i :: 0 <= i < |lang.topics| ==> NoUpper(lang.topics[i].key)
  }

  predicate ExamplesPresent(lang: Language) {
    forall i :: 0 <= i < |lang.topics| ==>
      lang.topics[i].detail.examples.Some? && lang.topics[i].detail.examples.value != ""
  }

  /** Every topic of every language carries a non-empty code example. */
  predicate ExamplesEverywhere(table: KnowledgeTable) {
    forall l :: 0 <= l < |table| ==> ExamplesPresent(table[l])
  }

  const ProgrammingKnowledge: KnowledgeTable := [
    Language("C++", [
      Topic("pointers", TopicDetail(
        "Pointers",
        "Pointers are variables that store memory addresses. They are fundamental to C++ and enable direct memory manipulation.",
        Some("int* ptr = &value;  // Declaration and initialization\nvoid* ptr = nullptr;  // Null pointer\ndelete ptr;          // Memory deallocation"))),
      Topic("memory-management", TopicDetail(
        "Memory Management",
        "C++ provides manual memory management through new/delete operators and smart pointers for automatic management.",
        Some("std::unique_ptr<int> ptr(new int(42));\nstd::shared_ptr<MyClass> shared = std::make_shared<MyClass>();\nstd::vector<int> vec;  // Automatic memory management"))),
      Topic("stl", TopicDetail(
        "Standard Template Library (STL)",
        "STL provides reusable container classes, algorithms, and iterators.",
        Some("std::vector<int> vec;\nstd::map<string, int> map;\nstd::sort(vec.begin(), vec.end());"))),
      Topic("templates", TopicDetail(
        "Templates",
        "Templates enable generic programming, allowing functions and classes to work with different data types.",
        Some("template<typename T>\nT max(T a, T b) { return a > b ? a : b; }"))),
      Topic("oop", TopicDetail(
        "Object-Oriented Programming",
        "C++ supports encapsulation, inheritance, and polymorphism through classes and objects.",
        Some("class Shape {\n  virtual void draw() = 0;  // Pure virtual function\n};"))),
      Topic("move-semantics", TopicDetail(
        "Move Semantics",
        "Modern C++ feature that enables efficient transfer of resources between objects.",
        Some("std::string str = std::move(other);  // Move constructor\nvec.push_back(std::move(element));"))),
      Topic("lambda", TopicDetail(
        "Lambda Expressions",
        "Anonymous function objects that can capture variables from their enclosing scope.",
        Some("auto sum = [](int a, int b) { return a + b; };\nstd::for_each(vec.begin(), vec.end(), [&total](int x) { total += x; });")))
    ]),
    Language("Python", [
      Topic("data-structures", TopicDetail(
        "Data Structures",
        "Python provides built-in data structures like lists, dictionaries, sets, and tuples.",
        Some("list_example = [1, 2, 3]\ndict_example = {\'key\': \'value\'}\nset_example = {1, 2, 3}"))),
      Topic("comprehensions", TopicDetail(
        "List Comprehensions",
        "Concise way to create lists, sets, and dictionaries based on existing iterables.",
        Some("squares = [x**2 for x in range(10)]\nevens = [x for x in range(10) if x % 2 == 0]"))),
      Topic("decorators", TopicDetail(
        "Decorators",
        "Functions that modify the behavior of other functions or classes.",
        Some("@property\ndef name(self):\n    return self._name\n\n@classmethod\ndef from_string(cls, string):\n    return cls(string)"))),
      Topic("generators", TopicDetail(
        "Generators",
        "Functions that can pause and resume execution, yielding values one at a time.",
        Some("def fibonacci():\n    a, b = 0, 1\n    while True:\n        yield a\n        a, b = b, a + b"))),
      Topic("async", TopicDetail(
        "Async/Await",
        "Asynchronous programming support for concurrent operations.",
        Some("async def fetch_data():\n    async with aiohttp.ClientSession() as session:\n        response = await session.get(url)"))),
      Topic("type-hints", TopicDetail(
        "Type Hints",
        "Optional static type annotations for variables, functions, and classes.",
        Some("def greet(name: str) -> str:\n    return f\"Hello, {name}!\"\n\nVector = List[float]"))),
      Topic("context-managers", TopicDetail(
        "Context Managers",
        "Objects that manage resource allocation and deallocation.",
        Some("with open(\'file.txt\', \'r\') as f:\n    content = f.read()\n\nclass DatabaseConnection:\n    def __enter__(self):\n        # Setup\n    def __exit__(self):\n        # Cleanup")))
    ])
  ]

  /** Exactly two languages, "C++" first and "Python" second. */
  lemma TableLanguages()
    ensures |ProgrammingKnowledge| == 2
    ensures ProgrammingKnowledge[0].name == "C++"
    ensures ProgrammingKnowledge[1].name == "Python"
  {
  }

  /** The C++ topic keys, in table order. */
  const CppKeys: seq<string> :=
    ["pointers", "memory-management", "stl", "templates", "oop", "move-semantics", "lambda"]

  /** The Python topic keys, in table order. */
  const PythonKeys: seq<string> :=
    ["data-structures", "comprehensions", "decorators", "generators", "async", "type-hints", "context-managers"]

  /** What the responder's properties rely on: "C++" then "Python", with these keys in this
      order, and a non-empty code example on every topic. */
  predicate TableShape(table: KnowledgeTable) {
    && |table| == 2
    && table[0].name == "C++" && Keys(table[0]) == CppKeys
    && table[1].name == "Python" && Keys(table[1]) == PythonKeys
    && ExamplesEverywhere(table)
  }

  /** The topic keys of each language are exactly these seven, in this order. */
  lemma TableTopicKeys()
    ensures Keys(ProgrammingKnowledge[0]) == CppKeys
    ensures Keys(ProgrammingKnowledge[1]) == PythonKeys
  {
  }

  /** Every topic record carries a non-empty code example. */
  lemma TableExamplesPresent()
    ensures ExamplesEverywhere(ProgrammingKnowledge)
  {
  }

  /** The shipped table has the shape. */
  lemma ShippedTableShape()
    ensures TableShape(ProgrammingKnowledge)
  {
    TableLanguages();
    TableTopicKeys();
    TableExamplesPresent();
  }

  /** The keys of a table of this shape are pairwise distinct within each language. */
  lemma ShapeKeysDistinct(table: KnowledgeTable)
    requires TableShape(table)
    ensures forall l :: 0 <= l < |table| ==> KeysDistinct(table[l])
  {
    forall l | 0 <= l < |table|
      ensures KeysDistinct(table[l])
    {
      var ks := Keys(table[l]);
      assert forall i :: 0 <= i < |table[l].topics| ==> table[l].topics[i].key == ks[i];
      assert forall i, j :: 0 <= i < j < |ks| ==> ks[i] != ks[j];
    }
  }

  lemma CppKeysLowercase()
    ensures forall i :: 0 <= i < |CppKeys| ==> NoUpper(CppKeys[i])
  {
  }

  lemma PythonKeysLowercase()
    ensures forall i :: 0 <= i < |PythonKeys| ==> NoUpper(PythonKeys[i])
  {
  }

  /** The keys of a table of this shape are lower-case. */
  lemma ShapeKeysLowercase(table: KnowledgeTable)
    requires TableShape(table)
    ensures forall l :: 0 <= l < |table| ==> KeysLowercase(table[l])
  {
    CppKeysLowercase();
    PythonKeysLowercase();
    forall l | 0 <= l < |table|
      ensures KeysLowercase(table[l])
    {
      assert forall i :: 0 <= i < |table[l].topics| ==> table[l].topics[i].key == Keys(table[l])[i];
    }
  }

  /** Within each language of the shipped table no topic key appears twice. */
  lemma TableKeysDistinct()
    ensures forall l :: 0 <= l < |ProgrammingKnowledge| ==> KeysDistinct(ProgrammingKnowledge[l])
  {
    ShippedTableShape();
    ShapeKeysDistinct(ProgrammingKnowledge);
  }

  /** Every topic key of the shipped table is already lower-case. */
  lemma TableKeysLowercase()
    ensures forall l :: 0 <= l < |ProgrammingKnowledge| ==> KeysLowercase(ProgrammingKnowledge[l])
  {
    ShippedTableShape();
    ShapeKeysLowercase(ProgrammingKnowledge);
  }

  /** Lower-casing a key of a language whose keys are lower-case changes nothing, so
      matching a key against a lower-cased message is matching the key as written. */
  lemma LowercaseKeysUnchanged(lang: Language)
    requires KeysLowercase(lang)
    ensures forall i :: 0 <= i < |lang.topics| ==> Lower(lang.topics[i].key) == lang.topics[i].key
  {
    forall i | 0 <= i < |lang.topics|
      ensures Lower(lang.topics[i].key) == lang.topics[i].key
    {
      LowerIsIdentityIff(lang.topics[i].key);
    }
  }

  /** Neither lower-cased language name occurs inside the other. */
  lemma LanguageNamesNotNested()
    ensures !Contains(Lower(ProgrammingKnowledge[0].name), Lower(ProgrammingKnowledge[1].name))
    ensures !Contains(Lower(ProgrammingKnowledge[1].name), Lower(ProgrammingKnowledge[0].name))
  {
    TableLanguages();
    NamesNotNested();
  }

  /** The shipped language names lower-cased. */
  lemma NamesLowered()
    ensures Lower("C++") == "c++"
    ensures Lower("Python") == "python"
  {
    assert Lower("C++") == "c++";
    assert Lower("Python") == "python";
  }

  lemma NamesNotNested()
    ensures !Contains(Lower("C++"), Lower("Python"))
    ensures !Contains(Lower("Python"), Lower("C++"))
  {
    NamesLowered();
    NotContainsLonger("c++", "python");
    NotContainsMissingChar("python", "c++", 1);
  }

}

=== FILE: responder.dfy ===
/** The keyword-matching responder: lower-case the message, commit to the first language
    whose lower-cased name occurs in it, then answer with that language's first topic whose
    key occurs, or with a listing of the language's topics; with no language, a fixed
    fallback. */
module Responder {

  import opened Wrappers
  import opened Strings
  import opened Search
  import opened Knowledge

  /** What the responder hands back: the text to show and an optional code snippet. */
  datatype Reply = Reply(content: string, code: Option<string>)

  /** The opening shared by the fallback and the topic listings. */
  const Greeting: string := "I can help you with "

  const FallbackText: string :=
    Greeting + "C++ and Python programming. "
    + "Try asking about specific topics like 'C++ pointers' or 'Python generators'!"

  /** The answer when no language is mentioned. */
  const FallbackReply: Reply := Reply(FallbackText, None)

  /** The language's lower-cased name occurs in the lower-cased message. */
  predicate LanguageHit(lower: string, lang: Language) {
    Contains(lower, Lower(lang.name))
  }

  /** The topic's lower-cased key occurs in the lower-cased message. */
  predicate TopicHit(lower: string, t: Topic) {
    Contains(lower, Lower(t.key))
  }

  /** The answer for a language that is mentioned without any of its topics. The
      language is named as written in the table, not lower-cased. */
  function ListingText(lang: Language): string {
    Greeting + lang.name + "! Here are some topics I know about: "
    + Join(", ", TopicNames(lang)) + ". What would you like to learn?"
  }

  /** The answer once the scan has committed to `lang`. */
  function ReplyFor(lang: Language, lower: string): Reply {
    match FirstMatch(lang.topics, t => TopicHit(lower, t))
    case Some(k) => Reply(lang.topics[k].detail.description, lang.topics[k].detail.examples)
    case None => Reply(ListingText(lang), None)
  }

  /** The responder as a pure function of the table and the message. */
  function Respond(table: KnowledgeTable, userMessage: string): Reply {
    var lower := Lower(userMessage);
    match FirstMatch(table, lang => LanguageHit(lower, lang))
    case None => FallbackReply
    case Some(i) => ReplyFor(table[i], lower)
  }

  // ---------------------------------------------------------------------------
  // Declarative description of the first-match rule
  // ---------------------------------------------------------------------------

  /** `i` is the first language, in table order, mentioned in `lower`. */
  predicate FirstLanguage(table: KnowledgeTable, lower: string, i: int) {
    && 0 <= i < |table|
    && LanguageHit(lower, table[i])
    && forall j :: 0 <= j < i ==> !LanguageHit(lower, table[j])
  }

  /** `k` is the first topic of `lang`, in table order, mentioned in `lower`. */
  predicate FirstTopic(lang: Language, lower: string, k: int) {
    && 0 <= k < |lang.topics|
    && TopicHit(lower, lang.topics[k])
    && forall j :: 0 <= j < k ==> !TopicHit(lower, lang.topics[j])
  }

  predicate NoLanguageHit(table: KnowledgeTable, lower: string) {
    forall j :: 0 <= j < |table| ==> !LanguageHit(lower, table[j])
  }

  predicate NoTopicHit(lang: Language, lower: string) {
    forall j :: 0 <= j < |lang.topics| ==> !TopicHit(lower, lang.topics[j])
  }

  // ---------------------------------------------------------------------------
  // The responder as written, with its loops and early returns
  // ---------------------------------------------------------------------------

  /** Walks the languages and then the chosen language's topics in table order and returns
      at the first hit. The typing flag is raised on entry and lowered on every return. */
  method GenerateResponse(table: KnowledgeTable, userMessage: string) returns (reply: Reply, isTyping: bool)
    ensures reply == Respond(table, userMessage)
    ensures !isTyping
  {
    isTyping := true;
    var lowercaseMsg := Lower(userMessage);
    var l := 0;
    while l < |table|
      invariant 0 <= l <= |table|
      invariant forall j :: 0 <= j < l ==> !LanguageHit(lowercaseMsg, table[j])
    {
      var language := table[l];
      if Contains(lowercaseMsg, Lower(language.name)) {
        FirstMatchIsFirst(table, lang => LanguageHit(lowercaseMsg, lang), l);
        var t := 0;
        while t < |language.topics|
          invariant 0 <= t <= |language.topics|
          invariant forall j :: 0 <= j < t ==> !TopicHit(lowercaseMsg, language.topics[j])
        {
          var topic := language.topics[t];
          if Contains(lowercaseMsg, Lower(topic.key)) {
            FirstMatchIsFirst(language.topics, tp => TopicHit(lowercaseMsg, tp), t);
            isTyping := false;
            return Reply(topic.detail.description, topic.detail.examples), isTyping;
          }
          t := t + 1;
        }
        isTyping := false;
        return Reply(ListingText(language), None), isTyping;
      }
      l := l + 1;
    }
    isTyping := false;
    reply := FallbackReply;
  }

  // ---------------------------------------------------------------------------
  // Properties of the rule, for any table
  // ---------------------------------------------------------------------------

  /** No language mentioned: the fixed fallback, without code. */
  lemma RespondFallback(table: KnowledgeTable, userMessage: string)
    requires NoLanguageHit(table, Lower(userMessage))
    ensures Respond(table, userMessage) == FallbackReply
  {
  }

  /** First mentioned language with a mentioned topic: that topic's description and example. */
  lemma RespondTopic(table: KnowledgeTable, userMessage: string, i: int, k: int)
    requires FirstLanguage(table, Lower(userMessage), i)
    requires FirstTopic(table[i], Lower(userMessage), k)
    ensures Respond(table, userMessage)
         == Reply(table[i].topics[k].detail.description, table[i].topics[k].detail.examples)
  {
    var lower := Lower(userMessage);
    FirstMatchIsFirst(table, lang => LanguageHit(lower, lang), i);
    FirstMatchIsFirst(table[i].topics, t => TopicHit(lower, t), k);
  }

  /** First mentioned language without a mentioned topic: the listing of its topics, without code. */
  lemma RespondListing(table: KnowledgeTable, userMessage: string, i: int)
    requires FirstLanguage(table, Lower(userMessage), i)
    requires NoTopicHit(table[i], Lower(userMessage))
    ensures Respond(table, userMessage) == Reply(ListingText(table[i]), None)
  {
    var lower := Lower(userMessage);
    FirstMatchIsFirst(table, lang => LanguageHit(lower, lang), i);
  }

  /** The scan commits to the first mentioned language: the reply is decided by that
      language alone, and whatever follows it in the table is never consulted. */
  lemma RespondCommits(table: KnowledgeTable, userMessage: string, i: int, later: KnowledgeTable)
    requires FirstLanguage(table, Lower(userMessage), i)
    ensures Respond(table, userMessage) == ReplyFor(table[i], Lower(userMessage))
    ensures Respond(table[..i + 1] + later, userMessage) == Respond(table, userMessage)
  {
    var lower := Lower(userMessage);
    var p := lang => LanguageHit(lower, lang);
    FirstMatchIsFirst(table, p, i);
    FirstMatchIgnoresLater(table, p, i, later);
  }

  /** The reply depends on the message only through its lower-cased form. */
  lemma RespondIgnoresCase(table: KnowledgeTable, a: string, b: string)
    requires Lower(a) == Lower(b)
    ensures Respond(table, a) == Respond(table, b)
  {
  }

  /** Lower-casing the message first does not change the reply. */
  lemma RespondToLowered(table: KnowledgeTable, userMessage: string)
    ensures Respond(table, Lower(userMessage)) == Respond(table, userMessage)
  {
    LowerIdempotent(userMessage);
  }

  /** The empty message mentions no language with a non-empty name, so it gets the fallback. */
  lemma RespondEmpty(table: KnowledgeTable)
    requires forall j :: 0 <= j < |table| ==> table[j].name != ""
    ensures Respond(table, "") == FallbackReply
  {
    forall j | 0 <= j < |table|
      ensures !LanguageHit(Lower(""), table[j])
    {
      NotContainsLonger(Lower(""), Lower(table[j].name));
    }
  }

  /** No listing reads like the fallback: a listing ends with a question mark, the
      fallback with an exclamation mark. */
  lemma ListingIsNotFallback(lang: Language)
    ensures ListingText(lang) != FallbackText
  {
    var listing := ListingText(lang);
    var closing := ". What would you like to learn?";
    assert listing == (Greeting + lang.name + "! Here are some topics I know about: "
      + Join(", ", TopicNames(lang))) + closing;
    assert listing[|listing| - 1] == closing[|closing| - 1] == '?';
    assert FallbackText[|FallbackText| - 1] == '!';
  }

  /** A listing names every topic of its language by its display label. */
  lemma ListingMentionsEveryTopic(lang: Language, k: int)
    requires 0 <= k < |lang.topics|
    ensures Contains(ListingText(lang), lang.topics[k].detail.topic)
  {
    var head := Greeting + lang.name + "! Here are some topics I know about: ";
    var labels := Join(", ", TopicNames(lang));
    var tail := ". What would you like to learn?";
    assert ListingText(lang) == (head + labels) + tail;
    assert TopicNames(lang)[k] == lang.topics[k].detail.topic;
    JoinContains(", ", TopicNames(lang), k);
    ContainsAppendLeft(head, labels, lang.topics[k].detail.topic);
    ContainsAppendRight(head + labels, tail, lang.topics[k].detail.topic);
  }

  /** When every topic carries code, the fallback is given exactly when no language is
      mentioned: a topic reply carries code and a listing differs from the fallback text. */
  lemma FallbackExactlyWhenNoLanguage(table: KnowledgeTable, userMessage: string)
    requires ExamplesEverywhere(table)
    ensures Respond(table, userMessage) == FallbackReply <==> NoLanguageHit(table, Lower(userMessage))
  {
    var lower := Lower(userMessage);
    match FirstMatch(table, lang => LanguageHit(lower, lang))
    case None =>
    case Some(i) =>
      RespondCommits(table, userMessage, i, []);
      assert ExamplesPresent(table[i]);
      ListingIsNotFallback(table[i]);
  }

  /** When every topic carries code, a reply carries code exactly when the first mentioned
      language has a mentioned topic, and that code is never empty. */
  lemma CodeExactlyOnTopicHit(table: KnowledgeTable, userMessage: string)
    requires ExamplesEverywhere(table)
    ensures Respond(table, userMessage).code.Some?
        <==> exists i :: FirstLanguage(table, Lower(userMessage), i)
                         && !NoTopicHit(table[i], Lower(userMessage))
    ensures Respond(table, userMessage).code.Some? ==> Respond(table, userMessage).code.value != ""
  {
    var lower := Lower(userMessage);
    match FirstMatch(table, lang => LanguageHit(lower, lang))
    case None =>
    case Some(i) =>
      RespondCommits(table, userMessage, i, []);
      assert ExamplesPresent(table[i]);
      assert forall i' :: FirstLanguage(table, lower, i') ==> i' == i;
  }

  /** Over a language with lower-case keys, a message containing none of its first `n` keys
      as written mentions none of its first `n` topics. */
  lemma KeysNotMentioned(lang: Language, lower: string, n: int)
    requires KeysLowercase(lang)
    requires 0 <= n <= |lang.topics|
    requires forall i :: 0 <= i < n ==> !Contains(lower, Keys(lang)[i])
    ensures forall j :: 0 <= j < n ==> !TopicHit(lower, lang.topics[j])
  {
    LowercaseKeysUnchanged(lang);
    forall j | 0 <= j < n
      ensures !TopicHit(lower, lang.topics[j])
    {
      assert Keys(lang)[j] == lang.topics[j].key;
    }
  }

  /** Over a language with lower-case keys, a message containing its `k`-th key as written,
      and none before it, mentions the `k`-th topic first. */
  lemma KeyMentionedFirst(lang: Language, lower: string, k: int)
    requires KeysLowercase(lang)
    requires 0 <= k < |lang.topics|
    requires forall i :: 0 <= i < k ==> !Contains(lower, Keys(lang)[i])
    requires Contains(lower, Keys(lang)[k])
    ensures FirstTopic(lang, lower, k)
  {
    KeysNotMentioned(lang, lower, k);
    LowercaseKeysUnchanged(lang);
  }

  // ---------------------------------------------------------------------------
  // Sample questions, over any table shaped like the shipped one
  // ---------------------------------------------------------------------------

  /** A message that starts with "python" and has no plus sign mentions Python and not C++. */
  lemma PythonNotCpp(m: string)
    requires StartsWith(m, "python") && '+' !in m
    ensures !Contains(m, "c++") && Contains(m, "python")
  {
    NotContainsMissingChar(m, "c++", 1);
    assert OccursAt(m, "python", 0);
  }

  lemma PythonicWords()
    ensures Lower("pythonic") == "pythonic"
    ensures !Contains("pythonic", "c++") && Contains("pythonic", "python")
  {
    LowerIsIdentityIff("pythonic");
    PythonNotCpp("pythonic");
  }

  lemma PythonicKeys()
    ensures forall i :: 0 <= i < |PythonKeys| ==> !Contains("pythonic", PythonKeys[i])
  {
    var m := "pythonic";
    forall i | 0 <= i < |PythonKeys|
      ensures !Contains(m, PythonKeys[i])
    {
      if i == 0 { NotContainsMissingChar(m, PythonKeys[i], 0); }
      else if i == 1 { NotContainsMissingChar(m, PythonKeys[i], 2); }
      else if i == 2 { NotContainsMissingChar(m, PythonKeys[i], 0); }
      else if i == 3 { NotContainsMissingChar(m, PythonKeys[i], 0); }
      else if i == 4 { NotContainsMissingChar(m, PythonKeys[i], 0); }
      else if i == 5 { NotContainsMissingChar(m, PythonKeys[i], 3); }
      else { NotContainsMissingChar(m, PythonKeys[i], 4); }
    }
  }

  /** There is no word-boundary check: "pythonic" mentions Python, and none of its topics. */
  lemma PythonicMentionsPython(table: KnowledgeTable)
    requires TableShape(table)
    ensures Respond(table, "pythonic") == Reply(ListingText(table[1]), None)
  {
    NamesLowered();
    PythonicWords();
    PythonicKeys();
    ShapeKeysLowercase(table);
    KeysNotMentioned(table[1], "pythonic", 7);
    RespondListing(table, "pythonic", 1);
  }

  lemma MixedLowered()
    ensures Lower("c++ and python generators") == "c++ and python generators"
  {
    LowerIsIdentityIff("c++ and python generators");
  }

  lemma MixedNames()
    ensures Contains("c++ and python generators", "c++")
  {
    assert OccursAt("c++ and python generators", "c++", 0);
  }

  lemma MixedCppKeys()
    ensures forall i :: 0 <= i < |CppKeys| ==> !Contains("c++ and python generators", CppKeys[i])
  {
    MixedEarlierCppKeys();
    MixedLaterCppKeys();
  }

  lemma MixedEarlierCppKeys()
    ensures forall i :: 0 <= i < 4 ==> !Contains("c++ and python generators", CppKeys[i])
  {
    var m := "c++ and python generators";
    forall i | 0 <= i < 4
      ensures !Contains(m, CppKeys[i])
    {
      if i == 1 { NotContainsMissingChar(m, CppKeys[i], 0); }
      else { NotContainsMissingChar(m, CppKeys[i], 2); }
    }
  }

  lemma MixedLaterCppKeys()
    ensures forall i :: 4 <= i < 7 ==> !Contains("c++ and python generators", CppKeys[i])
  {
    var m := "c++ and python generators";
    forall i | 4 <= i < 7
      ensures !Contains(m, CppKeys[i])
    {
      if i == 4 { NotContainsMissingPair(m, CppKeys[i], 0); }
      else { NotContainsMissingChar(m, CppKeys[i], 0); }
    }
  }

  lemma MixedPythonKeys()
    ensures forall i :: 0 <= i < 3 ==> !Contains("c++ and python generators", PythonKeys[i])
    ensures Contains("c++ and python generators", PythonKeys[3])
  {
    var m := "c++ and python generators";
    forall i | 0 <= i < 3
      ensures !Contains(m, PythonKeys[i])
    {
      if i == 0 { NotContainsMissingChar(m, PythonKeys[i], 8); }
      else if i == 1 { NotContainsMissingChar(m, PythonKeys[i], 2); }
      else { NotContainsMissingPair(m, PythonKeys[i], 0); }
    }
    assert OccursAt(m, PythonKeys[3], 15);
  }

  /** No backtracking: a message naming C++ first in table order gets the C++ listing, even
      though the Python entry alone would have answered it with its generators topic. */
  lemma CommitsWithoutBacktracking(table: KnowledgeTable)
    requires TableShape(table)
    ensures Respond(table, "c++ and python generators") == Reply(ListingText(table[0]), None)
    ensures ReplyFor(table[1], "c++ and python generators")
         == Reply(table[1].topics[3].detail.description, table[1].topics[3].detail.examples)
  {
    var m := "c++ and python generators";
    NamesLowered();
    MixedLowered();
    MixedNames();
    MixedCppKeys();
    MixedPythonKeys();
    ShapeKeysLowercase(table);
    KeysNotMentioned(table[0], m, 7);
    RespondListing(table, m, 0);
    KeyMentionedFirst(table[1], m, 3);
    FirstMatchIsFirst(table[1].topics, t => TopicHit(m, t), 3);
  }

  lemma GeneratorsWords()
    ensures Lower("PYTHON GENERATORS") == "python generators"
    ensures !Contains("python generators", "c++") && Contains("python generators", "python")
  {
    assert Lower("PYTHON GENERATORS") == "python generators";
    PythonNotCpp("python generators");
  }

  lemma GeneratorsEarlierKeys()
    ensures forall i :: 0 <= i < 3 ==> !Contains("python generators", PythonKeys[i])
  {
    var m := "python generators";
    forall i | 0 <= i < 3
      ensures !Contains(m, PythonKeys[i])
    {
      NotContainsMissingChar(m, PythonKeys[i], 0);
    }
  }

  lemma GeneratorsKey()
    ensures Contains("python generators", PythonKeys[3])
  {
    assert OccursAt("python generators", PythonKeys[3], 7);
  }

  /** A question in capitals gets the same topic answer as in lower case. */
  lemma CaseDoesNotMatter(table: KnowledgeTable)
    requires TableShape(table)
    ensures Respond(table, "PYTHON GENERATORS") == Respond(table, "python generators")
    ensures Respond(table, "PYTHON GENERATORS")
         == Reply(table[1].topics[3].detail.description, table[1].topics[3].detail.examples)
  {
    var m := "python generators";
    GeneratorsWords();
    LowerIdempotent("PYTHON GENERATORS");
    NamesLowered();
    GeneratorsEarlierKeys();
    GeneratorsKey();
    ShapeKeysLowercase(table);
    KeyMentionedFirst(table[1], m, 3);
    RespondTopic(table, "PYTHON GENERATORS", 1, 3);
  }

  // ---------------------------------------------------------------------------
  // The shipped table
  // ---------------------------------------------------------------------------

  /** The empty message gets the fallback. */
  lemma EmptyMessageGetsFallback()
    ensures Respond(ProgrammingKnowledge, "") == FallbackReply
  {
    TableLanguages();
    RespondEmpty(ProgrammingKnowledge);
  }

  /** Over the shipped table the fallback is given exactly when no language is mentioned. */
  lemma ShippedFallbackExactlyWhenNoLanguage(userMessage: string)
    ensures Respond(ProgrammingKnowledge, userMessage) == FallbackReply
        <==> NoLanguageHit(ProgrammingKnowledge, Lower(userMessage))
  {
    TableExamplesPresent();
    FallbackExactlyWhenNoLanguage(ProgrammingKnowledge, userMessage);
  }

  /** "pythonic" gets the Python listing from the shipped table. */
  lemma ShippedPythonic()
    ensures Respond(ProgrammingKnowledge, "pythonic") == Reply(ListingText(ProgrammingKnowledge[1]), None)
  {
    ShippedTableShape();
    PythonicMentionsPython(ProgrammingKnowledge);
  }

  /** "PYTHON GENERATORS" gets the shipped generators record. */
  lemma ShippedGenerators()
    ensures Respond(ProgrammingKnowledge, "PYTHON GENERATORS")
         == Reply(ProgrammingKnowledge[1].topics[3].detail.description,
                  ProgrammingKnowledge[1].topics[3].detail.examples)
  {
    ShippedTableShape();
    CaseDoesNotMatter(ProgrammingKnowledge);
  }

}

=== FILE: search.dfy ===
/** First-match-wins search over an ordered sequence: the shape of both loops of the
    responder, which walk a table in order and stop at the first entry that matches. */
module Search {

  import opened Wrappers

  /** `i` is the position of the first element of `xs` satisfying `p`. */
  ghost predicate IsFirst<T>(xs: seq<T>, p: T -> bool, i: int) {
    0 <= i < |xs| && p(xs[i]) && forall j :: 0 <= j < i ==> !p(xs[j])
  }

  /** The index of the first element satisfying `p`, or None when no element does. */
  function FirstMatch<T>(xs: seq<T>, p: T -> bool): (r: Option<nat>)
    ensures r.Some? ==> IsFirst(xs, p, r.value)
    ensures r.None? <==> forall j :: 0 <= j < |xs| ==> !p(xs[j])
    decreases |xs|
  {
    if xs == [] then None
    else if p(xs[0]) then Some(0)
    else
      match FirstMatch(xs[1..], p)
      case None => None
      case Some(k) => Some(k + 1)
  }

  /** The first match is unique: whatever position is first is what the search returns. */
  lemma FirstMatchIsFirst<T>(xs: seq<T>, p: T -> bool, i: int)
    requires IsFirst(xs, p, i)
    ensures FirstMatch(xs, p) == Some(i)
  {
  }

  /** The search never looks past its first match: replacing everything after it leaves
      the result unchanged. */
  lemma FirstMatchIgnoresLater<T>(xs: seq<T>, p: T -> bool, i: nat, later: seq<T>)
    requires FirstMatch(xs, p) == Some(i)
    ensures FirstMatch(xs[..i + 1] + later, p) == Some(i)
  {
    var ys := xs[..i + 1] + later;
    assert forall j :: 0 <= j <= i ==> ys[j] == xs[j];
    FirstMatchIsFirst(ys, p, i);
  }

}

=== FILE: strings.dfy ===
/** String operations the responder relies on: lower-casing, substring containment
    (`String.prototype.includes`), `Array.prototype.join` and `String.prototype.trim`. */
module Strings {

  // ---------------------------------------------------------------------------
  // Lower-casing (ASCII case folding)
  // ---------------------------------------------------------------------------

  predicate IsUpper(c: char) {
    'A' <= c <= 'Z'
  }

  /** Maps 'A'..'Z' to 'a'..'z' and leaves every other character alone. */
  function LowerChar(c: char): char {
    if IsUpper(c) then (c as int - 'A' as int + 'a' as int) as char else c
  }

  /** A string with no upper-case letter in it. */
  predicate NoUpper(s: string) {
    forall c :: c in s ==> !IsUpper(c)
  }

  /** `toLowerCase`, restricted to ASCII letters: the result has no upper-case letter and
      agrees with the input character by character up to case. */
  function Lower(s: string): (r: string)
    ensures |r| == |s|
    ensures NoUpper(r)
    ensures forall i :: 0 <= i < |s| ==> LowerChar(r[i]) == LowerChar(s[i])
  {
    seq(|s|, i requires 0 <= i < |s| => LowerChar(s[i]))
  }

  /** Lower-casing twice is lower-casing once. */
  lemma LowerIdempotent(s: string)
    ensures Lower(Lower(s)) == Lower(s)
  {
  }

  /** Lower-casing leaves a string unchanged exactly when it has no upper-case letter. */
  lemma LowerIsIdentityIff(s: string)
    ensures Lower(s) == s <==> NoUpper(s)
  {
    if NoUpper(s) {
      assert forall i :: 0 <= i < |s| ==> Lower(s)[i] == s[i];
    }
  }

  // ---------------------------------------------------------------------------
  // Substring containment
  // ---------------------------------------------------------------------------

  /** `needle` occurs in `hay` starting at index `i`. */
  predicate OccursAt(hay: string, needle: string, i: int) {
    0 <= i && i + |needle| <= |hay| && hay[i..i + |needle|] == needle
  }

  predicate StartsWith(s: string, prefix: string) {
    |prefix| <= |s| && s[..|prefix|] == prefix
  }

  lemma OccursAtTail(hay: string, needle: string)
    requires hay != []
    ensures forall i :: OccursAt(hay[1..], needle, i) ==> OccursAt(hay, needle, i + 1)
    ensures forall i :: 1 <= i && OccursAt(hay, needle, i) ==> OccursAt(hay[1..], needle, i - 1)
  {
    forall i | OccursAt(hay[1..], needle, i)
      ensures OccursAt(hay, needle, i + 1)
    {
      assert hay[1..][i..i + |needle|] == hay[i + 1..i + 1 + |needle|];
    }
    forall i | 1 <= i && OccursAt(hay, needle, i)
      ensures OccursAt(hay[1..], needle, i - 1)
    {
      assert hay[1..][i - 1..i - 1 + |needle|] == hay[i..i + |needle|];
    }
  }

  /** `hay.includes(needle)`: true exactly when `needle` occurs somewhere in `hay`.
      The empty needle occurs everywhere, as in JavaScript. */
  function Contains(hay: string, needle: string): (found: bool)
    ensures found <==> exists i :: OccursAt(hay, needle, i)
    decreases |hay|
  {
    if StartsWith(hay, needle) then
      assert OccursAt(hay, needle, 0);
      true
    else if hay == [] then
      false
    else
      OccursAtTail(hay, needle);
      Contains(hay[1..], needle)
  }

  /** Wherever `needle` occurs, its `k`-th character sits `k` places further on in `hay`. */
  lemma OccursAtChar(hay: string, needle: string, k: int)
    requires 0 <= k < |needle|
    ensures forall i :: OccursAt(hay, needle, i) ==> hay[i + k] == needle[k]
  {
    forall i | OccursAt(hay, needle, i)
      ensures hay[i + k] == needle[k]
    {
      assert hay[i..i + |needle|][k] == hay[i + k];
    }
  }

  /** A needle that has a character not present anywhere in `hay` does not occur in it. */
  lemma NotContainsMissingChar(hay: string, needle: string, k: int)
    requires 0 <= k < |needle|
    requires needle[k] !in hay
    ensures !Contains(hay, needle)
  {
  }

  /** A needle with two adjacent characters that are never adjacent in `hay` does not occur in it. */
  lemma {:induction false} NotContainsMissingPair(hay: string, needle: string, k: int)
    requires 0 <= k && k + 1 < |needle|
    requires forall j :: 0 <= j < |hay| - 1 ==> !(hay[j] == needle[k] && hay[j + 1] == needle[k + 1])
    ensures !Contains(hay, needle)
  {
    OccursAtChar(hay, needle, k);
    OccursAtChar(hay, needle, k + 1);
  }

  /** A needle longer than `hay` never occurs in it; in particular nothing non-empty occurs in "". */
  lemma NotContainsLonger(hay: string, needle: string)
    requires |hay| < |needle|
    ensures !Contains(hay, needle)
  {
  }

  /** An occurrence in `b` is an occurrence in `a + b`, shifted by `|a|`. */
  lemma ContainsAppendLeft(a: string, b: string, needle: string)
    requires Contains(b, needle)
    ensures Contains(a + b, needle)
  {
    var i :| OccursAt(b, needle, i);
    assert (a + b)[|a| + i..|a| + i + |needle|] == b[i..i + |needle|];
    assert OccursAt(a + b, needle, |a| + i);
  }

  /** An occurrence in `a` is an occurrence in `a + b`. */
  lemma ContainsAppendRight(a: string, b: string, needle: string)
    requires Contains(a, needle)
    ensures Contains(a + b, needle)
  {
    var i :| OccursAt(a, needle, i);
    assert (a + b)[i..i + |needle|] == a[i..i + |needle|];
    assert OccursAt(a + b, needle, i);
  }

  // ---------------------------------------------------------------------------
  // Array.prototype.join
  // ---------------------------------------------------------------------------

  /** The elements of `xs` in order, with `sep` between neighbours; "" for no elements. */
  function Join(sep: string, xs: seq<string>): string
    decreases |xs|
  {
    if |xs| == 0 then ""
    else if |xs| == 1 then xs[0]
    else xs[0] + sep + Join(sep, xs[1..])
  }

  function SumLengths(xs: seq<string>): nat
    decreases |xs|
  {
    if xs == [] then 0 else |xs[0]| + SumLengths(xs[1..])
  }

  /** Joining grows from the right the way JavaScript's join builds its result:
      the result for `xs + [x]` is the result for `xs`, a separator, then `x`. */
  lemma {:induction false} JoinSnoc(sep: string, xs: seq<string>, x: string)
    requires xs != []
    ensures Join(sep, xs + [x]) == Join(sep, xs) + sep + x
    decreases |xs|
  {
    if |xs| == 1 {
      assert xs + [x] == [xs[0], x];
    } else {
      assert (xs + [x])[1..] == xs[1..] + [x];
      JoinSnoc(sep, xs[1..], x);
    }
  }

  /** The joined string holds every element and one separator per gap, nothing more. */
  lemma {:induction false} JoinLength(sep: string, xs: seq<string>)
    requires xs != []
    ensures |Join(sep, xs)| == SumLengths(xs) + (|xs| - 1) * |sep|
    decreases |xs|
  {
    if |xs| > 1 {
      JoinLength(sep, xs[1..]);
    }
  }

  /** Every element occurs in the joined string. */
  lemma {:induction false} JoinContains(sep: string, xs: seq<string>, k: int)
    requires 0 <= k < |xs|
    ensures Contains(Join(sep, xs), xs[k])
    decreases |xs|
  {
    if |xs| == 1 {
      assert OccursAt(Join(sep, xs), xs[k], 0);
    } else if k == 0 {
      ContainsAppendRight(xs[0], sep + Join(sep, xs[1..]), xs[0]) by {
        assert OccursAt(xs[0], xs[0], 0);
      }
      assert Join(sep, xs) == xs[0] + (sep + Join(sep, xs[1..]));
    } else {
      JoinContains(sep, xs[1..], k - 1);
      ContainsAppendLeft(xs[0] + sep, Join(sep, xs[1..]), xs[k]);
    }
  }

  // ---------------------------------------------------------------------------
  // String.prototype.trim
  // ---------------------------------------------------------------------------

  /** The code points ECMAScript's `trim` strips: WhiteSpace (tab, vertical tab,
      form feed, space, no-break space, zero-width no-break space and the Unicode
      space separators) and LineTerminator (line feed, carriage return, line and
      paragraph separators). */
  predicate IsWhiteSpace(c: char) {
    || c == '\t' || c == '\n' || c == '\U{000B}' || c == '\U{000C}' || c == '\r'
    || c == ' ' || c == '\U{00A0}' || c == '\U{1680}'
    || ('\U{2000}' <= c <= '\U{200A}')
    || c == '\U{2028}' || c == '\U{2029}' || c == '\U{202F}' || c == '\U{205F}'
    || c == '\U{3000}' || c == '\U{FEFF}'
  }

  predicate AllWhiteSpace(s: string) {
    forall i :: 0 <= i < |s| ==> IsWhiteSpace(s[i])
  }

  /** Drops leading white space: the result is the longest suffix not starting with it. */
  function TrimStart(s: string): (r: string)
    ensures |r| <= |s| && r == s[|s| - |r|..]
    ensures AllWhiteSpace(s[..|s| - |r|])
    ensures r == [] || !IsWhiteSpace(r[0])
    decreases |s|
  {
    if s != [] && IsWhiteSpace(s[0]) then
      var r := TrimStart(s[1..]);
      assert s[..|s| - |r|] == [s[0]] + s[1..][..|s| - 1 - |r|];
      r
    else s
  }

  /** Drops trailing white space: the result is the longest prefix not ending with it. */
  function TrimEnd(s: string): (r: string)
    ensures |r| <= |s| && r == s[..|r|]
    ensures AllWhiteSpace(s[|r|..])
    ensures r == [] || !IsWhiteSpace(r[|r| - 1])
    decreases |s|
  {
    if s != [] && IsWhiteSpace(s[|s| - 1]) then
      var r := TrimEnd(s[..|s| - 1]);
      assert s[|r|..] == s[..|s| - 1][|r|..] + [s[|s| - 1]];
      r
    else s
  }

  /** `s.trim()`: empty exactly for an all-white-space string, and otherwise
      starting and ending with a character that is not white space. */
  function Trim(s: string): (r: string)
    ensures r == [] <==> AllWhiteSpace(s)
    ensures r == [] || (!IsWhiteSpace(r[0]) && !IsWhiteSpace(r[|r| - 1]))
  {
    var t := TrimStart(s);
    var r := TrimEnd(t);
    assert s == s[..|s| - |t|] + t;
    assert r != [] ==> r[0] == t[0] == s[|s| - |t|];
    r
  }

}

=== FILE: wrappers.dfy ===
/** The optional-value wrapper used for TypeScript's optional fields (`code?`, `examples?`)
    and for "no match" results of the first-match search. */
module Wrappers {

  datatype Option<+T> = None | Some(value: T)

}
